=== FILE: README.md ===
# KSITM super-app: a Dafny model of its client-side logic

The KSITM super-app is a React client for a technical institute.
Students and lecturers share it.
Nearly all of it is markup over mock data.
This project models the few pieces that decide state, as pure functions on immutable records and sequences:

- **The AI tutor transcript** (`handleSend` in AITutor.tsx). It is modelled as two phases:
  - `Tutor.Send` rejects a blank text, appends the user turn and issues the request.
  - `Tutor.Resolve` appends exactly one model turn for an abstract completion outcome and clears `loading`.
  - `Tutor.Round` and `Tutor.Conversation` compose the two phases.
  - The lemmas prove the append-only, alternating shape of the transcript.
- **The view-local transitions of Views.tsx.** These are:
  - the like toggle and post creation of the community feed (`CommunityFeed`);
  - username sanitising and availability, the staff access code, and the two registration-wizard guards (`Registration`);
  - the global search and the head-of-department (HOD) student list (`Search`);
  - the camera's acquisition fallback and cleanup, as a small state machine fed the device's answers (`Camera`).
- **The App.tsx flow** (`App`). This covers:
  - the authentication steps SPLASH → ROLE_SELECT → LOGIN → APP;
  - the profile built when onboarding completes, with per-field defaults;
  - the dark-mode preference;
  - which screen each tab renders;
  - when the top bar shows.

`Text` provides the JavaScript string operations the code relies on: `trim()`, ASCII `toLowerCase()` and `includes()`.
`Seqs` provides `Array.filter` and the prefix and subsequence relations the contracts use.
`Types` and `Constants` transcribe types.ts and the constants the logic reads.
The following outside inputs become parameters:
- `Date.now()` ids and timestamps;
- the language model's answer;
- the camera's answers;
- the value `localStorage` holds;
- the mock lists.

The `setTimeout` delays are collapsed.
Each timer callback is a separate function, applied right after the action that armed it.

## Model

| member | source | states |
|---|---|---|
| Text.Trim | AITutor.tsx:38 | `trim()` returns a contiguous slice of the input outside which every character is whitespace, with non-whitespace ends; it is empty exactly when the input is all whitespace |
| Text.BlankIffTrimEmpty | AITutor.tsx:38 | the recursive blank test used throughout agrees with `!s.trim()` on every string |
| Text.Lower | Views.tsx:162 | lower-casing keeps the length and maps each character to its lower-case form, leaving no upper-case letter |
| Text.Contains | Views.tsx:164-166 | `includes` holds exactly when the needle occurs at some position of the haystack |
| Seqs.Filter | Views.tsx:164-166 | `filter` returns an order-preserving subsequence holding every passing element as many times as the source holds it and no failing element, and returns the whole list when every element passes |
| Seqs.FilterMembers | Views.tsx:164-166 | an element of the source is in the filtered list exactly when it passes the test |
| Tutor.Initial | AITutor.tsx:16-23 | the transcript starts as a single non-error model turn, the "welcome" greeting stamped at mount, with an empty input and no call in flight, and is well formed |
| Tutor.Send | AITutor.tsx:36-65 | a blank text (a non-empty override winning over the input box) changes nothing and sends nothing; otherwise exactly one user turn carrying the text is appended to an untouched prefix, the input is cleared, loading is raised, and the request replays the prior transcript in order then the new user entry, with the persona carried beside the contents |
| Tutor.ReplyText | AITutor.tsx:71 | a reply is never empty: the response text when it is non-empty, else the fixed fallback sentence |
| Tutor.Resolve | AITutor.tsx:68-87 | exactly one model turn is appended to an untouched prefix: on failure the fixed error text flagged `isError`, otherwise the reply text unflagged; loading is cleared on both paths |
| Tutor.SendKeepsWellFormed | AITutor.tsx:40-49 | a send from a well-formed idle transcript leaves a user turn awaiting its answer, still well formed |
| Tutor.ResolveKeepsWellFormed | AITutor.tsx:68-87 | resolving a pending send keeps the transcript alternating and clears loading |
| Tutor.SendButtonSends | AITutor.tsx:174-178 | pressing the enabled send button records the typed text and disables the input and the button until the answer arrives |
| Tutor.Round | AITutor.tsx:36-88 | one typed message and its answer: nothing changes for blank text, else exactly a user turn with the text then a model turn are appended, the earlier turns untouched, and loading ends cleared |
| Tutor.RoundKeepsWellFormed | AITutor.tsx:36-88 | a completed round keeps the transcript well formed |
| Tutor.Conversation | AITutor.tsx:36-88 | a sequence of rounds, each answered before the next is typed, ends idle and never removes or reorders earlier turns |
| Tutor.ConversationLength | AITutor.tsx:47-84 | when every message is non-blank, the transcript grows by exactly two turns per message |
| Tutor.ConversationAppends | AITutor.tsx:47-84 | when every message is non-blank, each message leaves the user's text answered by one model turn, at consecutive positions in call order |
| Tutor.ConversationWellFormed | AITutor.tsx:16-88 | from a well-formed start the transcript stays non-empty, keeps the welcome turn first and alternates user and model turns |
| CommunityFeed.ToggledPost | Views.tsx:1018-1020 | the liked state flips (absent counts as not liked), the count moves by one in the matching direction, and no other field changes |
| CommunityFeed.ToggleLike | Views.tsx:1016-1023 | length and order are kept, posts with another id are untouched, and every post with the id is toggled |
| CommunityFeed.ToggleLikeTwice | Views.tsx:1016-1023 | liking twice restores every count and liked state, and restores the list exactly when every matching post had its flag set |
| CommunityFeed.Publish | Views.tsx:1025-1041 | a blank draft without an image changes nothing; otherwise one post heads the unchanged feed, with the given id, author "first last", the time "Just now", the draft text, no likes or comments, `liked` false, and the image only if one was taken, and the draft is cleared |
| CommunityFeed.PublishThenLikeTwice | Views.tsx:1016-1041 | a new post can be liked once for one like, and liking it again returns the feed to what publishing produced |
| Registration.VerifyStaffCode | Views.tsx:255-266 | the admin portal is granted exactly on equality with the access code; any other code shows the denial and leads to the student portal |
| Registration.LowerCaseCodeDenied | Views.tsx:257 | the comparison is case-sensitive: the code typed in lower case is refused |
| Registration.SanitizeUsername | Views.tsx:378 | the sanitised name is no longer than the input and holds only `a-z`, `0-9` and `_` |
| Registration.SanitizeIsLowerThenFilter | Views.tsx:378 | sanitising is exactly lower-casing followed by keeping the allowed characters |
| Registration.SanitizeFixpoint | Views.tsx:378 | a name is left unchanged by sanitising exactly when all its characters are allowed |
| Registration.SanitizeIdempotent | Views.tsx:378 | sanitising twice equals sanitising once |
| Registration.EditUsername | Views.tsx:377-386 | the sanitised name is stored; below three characters the status is idle with no check armed, otherwise checking with a check of that name armed |
| Registration.CheckAvailability | Views.tsx:387-393 | the check reports taken exactly for the five reserved names, available otherwise |
| Registration.UsernameStatusFor | Views.tsx:375-394 | once the check has fired the status is never checking; it is idle exactly below three characters and available exactly for a long-enough name that is not reserved |
| Registration.TakenIffReserved | Views.tsx:375-393 | a name is reported taken exactly when its sanitised form is reserved |
| Registration.RegisterStep1 | Views.tsx:407-419 | step 1 advances exactly when first name, last name, email and department are all non-empty, and otherwise alerts |
| Registration.RegisterStep2 | Views.tsx:421-432 | staff always complete with the form as filled; a student completes exactly when the name is not reported taken and date of birth and username are non-empty |
| Registration.UsernameGatesRegistration | Views.tsx:377-432 | a student who types a reserved name, in any case and with any stray characters, cannot finish; one with a free name and a date of birth can |
| Search.MatchingCourses | Views.tsx:164 | the course results are an order-preserving subsequence holding exactly the courses whose title or code contains the query, each as often as in the source |
| Search.MatchingPosts | Views.tsx:165 | the post results are an order-preserving subsequence holding exactly the posts whose content or author contains the query, each as often as in the source |
| Search.MatchingAnnouncements | Views.tsx:166 | the announcement results are an order-preserving subsequence holding exactly the announcements whose title or content contains the query, each as often as in the source |
| Search.GlobalSearch | Views.tsx:160-168 | a blank query finds nothing; otherwise each list is an order-preserving subsequence of its source holding exactly the items with a listed field that contains the lower-cased query, each as often as in the source |
| Search.SearchIgnoresQueryCase | Views.tsx:160-168 | the results do not depend on the letter case of the query |
| Search.LowerIdempotent | Views.tsx:162 | lower-casing an already lower-cased query changes nothing |
| Search.LowerKeepsBlank | Views.tsx:161-162 | lower-casing keeps a query blank or non-blank |
| Search.DepartmentStudents | Views.tsx:888-891 | a lecturer who is not HOD sees no students; an HOD sees an order-preserving subsequence holding exactly the students of their department, each as often as in the source |
| Camera.Mount | Views.tsx:36-44 | mounting first requests the rear camera, holding no stream |
| Camera.DeviceAnswered | Views.tsx:39-62 | a stream answer is held; a failed rear request issues the front request; a failed front request signals `onClose` |
| Camera.Acquire | Views.tsx:39-64 | the rear camera is requested first and the front one only if it fails; `onClose` is signalled exactly when both fail; the stream held is the rear one, else the front one |
| Camera.AcquireRequestsEachModeOnce | Views.tsx:39-62 | no facing mode is requested twice |
| Camera.StopTracks | Views.tsx:68 | every track is stopped and ids and order are kept |
| Camera.StopTracksStopped | Views.tsx:68 | stopping already-stopped tracks changes nothing |
| Camera.Cleanup | Views.tsx:66-70 | the cleanup leaves no track of the held stream live, and changes nothing else about the acquisition |
| Camera.CleanupIdempotent | Views.tsx:66-70 | running the cleanup twice is running it once |
| Camera.FailedAcquisitionHoldsNothing | Views.tsx:57-70 | when both requests fail no stream is ever held, before or after cleanup |
| Camera.LateStreamOutlivesCleanup | Views.tsx:37-70 | a stream delivered after the cleanup has run stays live |
| App.Startup | App.tsx:12-38 | the app starts on the splash screen at the home tab with no role or profile, and dark mode is on exactly when the saved theme is "dark" |
| App.ToggleDarkMode | App.tsx:40-44 | the flag flips, the new mode is stored as "dark" or "light", and nothing else changes |
| App.ToggleDarkModeTwice | App.tsx:40-44 | toggling twice restores the flag, and the stored value too whenever it agreed with the flag |
| App.ToggleSurvivesRestart | App.tsx:32-44 | the mode chosen by a toggle is the one the next start loads |
| App.OrDefault | App.tsx:55-60 | the JavaScript `or` default keeps a non-empty value, else takes the fallback, and is empty only when the fallback is |
| App.AdminProfileFrom | App.tsx:52-62 | first name, last name, department, staff id and avatar each take the submitted value when non-empty, else the mock lecturer's; the email is always the submitted one; HOD rights exactly when requested |
| App.Step1KeepsIdentity | App.tsx:51-84 | for a form that passed the wizard's first step, both profiles carry the submitted first name, last name, department and email; only the staff id and avatar of an admin can fall back to the mock lecturer's |
| App.StudentProfileFrom | App.tsx:66-84 | the submitted identity, the uploaded avatar or a generated one seeded with the first name, and fresh-account values: no streak, one notification, results pending |
| App.SplashElapsed | App.tsx:26-29 | the splash timer moves to role selection and changes nothing else |
| App.SelectRole | App.tsx:46-49 | the role is recorded and the login step follows, nothing else changes |
| App.CompleteAuth | App.tsx:51-89 | onboarding always enters the app with a profile: an admin profile on the admin dashboard for the admin role, a student profile on the home tab otherwise |
| App.StepAdvancesOneAtATime | App.tsx:26-89 | every event keeps the authentication step or advances it by one; the splash leads only to role selection, and nothing leaves the app |
| App.RunKeepsInv | App.tsx:46-89 | along any run of enabled events, a role is known from login on, a profile exists exactly inside the app and has the chosen role, and the flow never goes back |
| App.StartupSatisfiesInv | App.tsx:15-18 | the initial state satisfies that invariant |
| App.RenderContent | App.tsx:91-113 | nothing renders without a profile; a student never gets an admin screen and gets the dashboard on any tab without a student screen; an admin gets only admin, community or profile screens, and the dashboard on the home, LMS and tutor tabs |
| App.ShownView | App.tsx:116-143 | the splash, role selection, the auth form (only with a role known, for that role) or else the main layout is shown, by the authentication step |
| App.EnabledIffOffered | App.tsx:116-140 | in every reachable state an event is possible exactly when the view on screen offers it, the theme switch only on the profile screen |
| App.NavTabs | App.tsx:223-236 | each role's navigation starts at its home tab, holds community and profile and no tab twice; students get the LMS and tutor buttons but no assignments or admin button, admins get the assignments button but no home, LMS or tutor button |
| App.LandingTabIsFirstButton | App.tsx:64-86 | onboarding opens the tab of the role's first navigation button |
| App.NavTabsReachDistinctScreens | App.tsx:223-236 | inside the app every bottom-navigation button of the user's role leads to a screen of its own |
| App.ShowsTopBar | App.tsx:172 | the top bar is hidden exactly on the tutor and profile tabs |

## Left out

- The language-model call is not modelled: no SDK, API key or model name. Its result is the abstract `Outcome`: an answer text, no text, or a thrown error.
- Tutor.Send: requires an idle session. The input and the send button are disabled while loading, but the suggestion chips are not. The code has no in-flight guard of its own, so overlapping sends are possible; they are concurrency and are not modelled.
- Tutor.Conversation: its claims, and those of `Tutor.Send` and `Tutor.Resolve`, hold within one mount of the tutor view. Leaving the tutor tab unmounts it; on return the transcript starts again from the welcome turn, and an answer still pending when the tab was left is lost. Sessions across mounts are not modelled.
- CommunityFeed.ToggleLike: like `CommunityFeed.Publish`, it acts on the feed of one mount of the community view. Leaving the community tab discards likes and new posts; on return the feed starts again from the mock posts.
- The `console.error` logging on a failed language-model call and on a camera failure is left out; it has no effect on state.
- The `setTimeout` delays are collapsed into direct transitions. This covers the splash, the staff-code redirect, the username check and both wizard steps.
- Registration.VerifyStaffCode: a denial's pending redirect to the student portal is not cancelled, so a correct code typed within the 1.5 s delay is still overridden to student. The code keeps the form live meanwhile; this race is not modelled. In it, a staff sign-in already in flight builds an admin profile while the chosen role is student, so the navigation follows one role and the screens the other; the invariant of `App.RunKeepsInv` holds only without it.
- Sign Out and Change Role reload the page, which restarts the flow at the splash. The model covers one page load, so `App.StepAdvancesOneAtATime` and `App.RunKeepsInv` say nothing across a reload.
- The race between a stale username check and a later edit is left out. In the model the check fires before anything else happens; in the code a pending "checking" status does not block step 2.
- Camera.Cleanup: does not release a stream delivered after the view closed. The code only stops a stream it already holds, and `Camera.LateStreamOutlivesCleanup` records this.
- `getUserMedia`, video and canvas drawing, and the JPEG snapshot are device and DOM code. So are `FileReader` avatar uploads and the whiteboard; the reload itself is the page restart described above.
- The assignment-description generator of `AssignmentsView` calls the language model, so it is left out with the other SDK calls.
- `localStorage` I/O is reduced to the value stored under "theme".
- `Date.now()` ids and timestamps are opaque parameters.
- The floating-point GPA field is omitted from the student profile.
- The canned login data of `handleLogin` is omitted. It is mock content.
- Text.Lower: lower-cases ASCII letters only, where JavaScript lower-cases all of Unicode.
- The mock course, post, announcement and student lists are parameters, not constants.
- The overlays are presentation only: search panel visibility, chat and study rooms.
- CommunityFeed.ToggleLikeTwice: does not restore a post exactly when its `liked` flag was absent, as in the seeded feed. Such a post comes back with `liked: false`; its count and liked state are restored.
- The registration form's rendering is not modelled. In the code the department select of the staff form appears only when HOD is ticked, while step 1 demands a department, so a lecturer who is not HOD cannot pass step 1. `Registration.RegisterStep1` follows the code.
- App.ToggleDarkModeTwice: does not restore the stored theme whenever the stored value disagreed with the flag: nothing stored, or anything but "dark" and "light". Two toggles then store the value matching the flag.

=== FILE: app.dfy ===
/**
 The top-level flow of App.tsx: the authentication steps, the profile built
 when onboarding completes, the dark-mode preference, and which screen and
 chrome each tab shows. `localStorage` is modelled by the value it holds
 under 'theme'; the splash timer is an event.
 */
module App {
  import opened Types
  import opened Constants
  import Registration

  datatype AuthStep = Splash | RoleSelect | Login | InApp

  datatype AppState = AppState(
    activeTab: AppTab,
    authStep: AuthStep,
    userRole: Option<UserRole>,
    profile: Option<Profile>,
    darkMode: bool,
    storedTheme: Option<string>)

  // ---------------------------------------------------------------------
  // Theme

  /** The value `toggleDarkMode` stores for a mode. */
  function ThemeValue(dark: bool): string {
    if dark then "dark" else "light"
  }

  /** The state right after mount, once the saved theme has been read. */
  function Startup(savedTheme: Option<string>): (s: AppState)
    ensures s.darkMode <==> savedTheme == Some("dark")
    ensures s.storedTheme == savedTheme
    ensures s.authStep == Splash && s.activeTab == Home
    ensures s.userRole.None? && s.profile.None?
  {
    AppState(Home, Splash, None, None, savedTheme == Some("dark"), savedTheme)
  }

  /** `toggleDarkMode`: flip the flag and store the new mode. */
  function ToggleDarkMode(s: AppState): (r: AppState)
    ensures r.darkMode == !s.darkMode
    ensures r.storedTheme == Some(ThemeValue(r.darkMode))
    ensures r.(darkMode := s.darkMode, storedTheme := s.storedTheme) == s
  {
    var dark := !s.darkMode;
    s.(darkMode := dark, storedTheme := Some(ThemeValue(dark)))
  }

  /** Toggling twice restores the mode, and restores the stored value too
      whenever it already agreed with the mode. */
  lemma ToggleDarkModeTwice(s: AppState)
    ensures ToggleDarkMode(ToggleDarkMode(s)).darkMode == s.darkMode
    ensures ToggleDarkMode(ToggleDarkMode(s)).storedTheme == Some(ThemeValue(s.darkMode))
    ensures s.storedTheme == Some(ThemeValue(s.darkMode)) ==> ToggleDarkMode(ToggleDarkMode(s)) == s
  {
  }

  /** The mode chosen by a toggle is the one the next start loads. */
  lemma ToggleSurvivesRestart(s: AppState)
    ensures Startup(ToggleDarkMode(s).storedTheme).darkMode == ToggleDarkMode(s).darkMode
  {
  }

  // ---------------------------------------------------------------------
  // Profiles

  /** `value || fallback` on strings. */
  function OrDefault(value: string, fallback: string): (r: string)
    ensures r != [] || fallback == []
    ensures value != [] ==> r == value
    ensures value == [] ==> r == fallback
  {
    if value != [] then value else fallback
  }

  /** The admin profile of `handleAuthComplete`: each identity field is the
      submitted one when non-empty, else the `MOCK_ADMIN_PROFILE` one; the
      email is always the submitted one. */
  function AdminProfileFrom(data: Registration.FormData): (p: AdminProfile)
    ensures p.firstName == OrDefault(data.firstName, MOCK_ADMIN_PROFILE.firstName)
    ensures p.lastName == OrDefault(data.lastName, MOCK_ADMIN_PROFILE.lastName)
    ensures p.department == OrDefault(data.department, MOCK_ADMIN_PROFILE.department)
    ensures p.staffId == OrDefault(data.staffId, MOCK_ADMIN_PROFILE.staffId)
    ensures p.avatar == OrDefault(data.avatar, MOCK_ADMIN_PROFILE.avatar)
    ensures p.email == data.email
    ensures p.IsHod() <==> data.isHOD
    ensures p.isHOD == Some(data.isHOD)
  {
    MOCK_ADMIN_PROFILE.(
      firstName := OrDefault(data.firstName, MOCK_ADMIN_PROFILE.firstName),
      lastName := OrDefault(data.lastName, MOCK_ADMIN_PROFILE.lastName),
      email := data.email,
      department := OrDefault(data.department, MOCK_ADMIN_PROFILE.department),
      staffId := OrDefault(data.staffId, MOCK_ADMIN_PROFILE.staffId),
      avatar := OrDefault(data.avatar, MOCK_ADMIN_PROFILE.avatar),
      isHOD := Some(data.isHOD))
  }

  /** On the registration path the wizard's first step has already
      demanded a first name, last name, email and department, so the
      identity of either profile is the one submitted: only the staff id
      and the avatar can still fall back to a default. */
  lemma Step1KeepsIdentity(data: Registration.FormData)
    requires Registration.RegisterStep1(data).AdvanceToStep2?
    ensures var p := AdminProfileFrom(data);
      p.firstName == data.firstName && p.lastName == data.lastName
      && p.department == data.department && p.email == data.email
    ensures var p := StudentProfileFrom(data);
      p.firstName == data.firstName && p.lastName == data.lastName
      && p.department == data.department && p.email == data.email
    ensures AdminProfileFrom(data) ==
      MOCK_ADMIN_PROFILE.(
        firstName := data.firstName, lastName := data.lastName, email := data.email,
        department := data.department, isHOD := Some(data.isHOD),
        staffId := AdminProfileFrom(data).staffId, avatar := AdminProfileFrom(data).avatar)
  {
  }

  const AVATAR_SEED_URL: string := "https://api.dicebear.com/7.x/avataaars/svg?seed="

  /** The student profile of `handleAuthComplete`: the submitted identity, a
      generated avatar when none was uploaded, and fresh-account counters. */
  function StudentProfileFrom(data: Registration.FormData): (p: StudentProfile)
    ensures p.firstName == data.firstName && p.lastName == data.lastName
    ensures p.email == data.email && p.department == data.department
    ensures p.matricNumber == data.matricNumber && p.level == data.level
    ensures data.avatar != [] ==> p.avatar == data.avatar
    ensures data.avatar == [] ==> p.avatar == AVATAR_SEED_URL + data.firstName
    ensures p.streak == 0 && p.notifications == 1 && p.results == Some("Pending")
    ensures p.phone == [] && p.timetable == "Mon 9AM - COM 111"
    ensures p.username == Some(data.username) && p.dateOfBirth == Some(data.dateOfBirth)
  {
    StudentProfile(
      firstName := data.firstName,
      lastName := data.lastName,
      matricNumber := data.matricNumber,
      department := data.department,
      level := data.level,
      avatar := OrDefault(data.avatar, AVATAR_SEED_URL + data.firstName),
      email := data.email,
      phone := "",
      streak := 0,
      timetable := "Mon 9AM - COM 111",
      notifications := 1,
      results := Some("Pending"),
      dateOfBirth := Some(data.dateOfBirth),
      username := Some(data.username))
  }

  // ---------------------------------------------------------------------
  // Authentication steps

  /** The splash timer fires. */
  function SplashElapsed(s: AppState): (r: AppState)
    ensures r.authStep == RoleSelect
    ensures r.(authStep := s.authStep) == s
  {
    s.(authStep := RoleSelect)
  }

  /** `handleRoleSelect`. */
  function SelectRole(s: AppState, role: UserRole): (r: AppState)
    ensures r.userRole == Some(role) && r.authStep == Login
    ensures r.(userRole := s.userRole, authStep := s.authStep) == s
  {
    s.(userRole := Some(role), authStep := Login)
  }

  /** `handleAuthComplete`: build the profile for the chosen role (anything
      but admin gets a student profile), open its home tab, enter the app. */
  function CompleteAuth(s: AppState, data: Registration.FormData): (r: AppState)
    ensures r.authStep == InApp && r.profile.Some?
    ensures s.userRole == Some(Admin) ==>
      r.profile == Some(AdminAccount(AdminProfileFrom(data))) && r.activeTab == AdminDashboard
    ensures s.userRole != Some(Admin) ==>
      r.profile == Some(StudentAccount(StudentProfileFrom(data))) && r.activeTab == Home
    ensures r.userRole == s.userRole && r.darkMode == s.darkMode && r.storedTheme == s.storedTheme
  {
    if s.userRole == Some(Admin) then
      s.(profile := Some(AdminAccount(AdminProfileFrom(data))), activeTab := AdminDashboard, authStep := InApp)
    else
      s.(profile := Some(StudentAccount(StudentProfileFrom(data))), activeTab := Home, authStep := InApp)
  }

  /** What the user can do, and when the screen on show lets them. */
  datatype Event =
    | SplashTimer
    | ChooseRole(role: UserRole)
    | FinishAuth(data: Registration.FormData)
    | ToggleTheme
    | Navigate(tab: AppTab)

  /** The splash screen has no controls, role selection renders only at
      ROLE_SELECT, the auth form only at LOGIN with a role chosen, tab
      navigation only inside the app, and the theme switch only on its
      profile screen. `EnabledIffOffered` ties this to the screens. */
  predicate Enabled(s: AppState, e: Event) {
    match e
    case SplashTimer => s.authStep == Splash
    case ChooseRole(_) => s.authStep == RoleSelect
    case FinishAuth(_) => s.authStep == Login && s.userRole.Some?
    case ToggleTheme => s.authStep == InApp && s.activeTab == ProfileTab
    case Navigate(_) => s.authStep == InApp
  }

  /** The top-level view `App` returns. */
  datatype View = SplashView | RoleSelectionView | AuthView(role: UserRole) | MainView

  /** The chain of early returns of `App`: the splash, role selection, the
      auth form when a role is known, and otherwise the main layout (also
      at LOGIN without a role, where it would render no content). */
  function ShownView(s: AppState): (v: View)
    ensures v == SplashView <==> s.authStep == Splash
    ensures v == RoleSelectionView <==> s.authStep == RoleSelect
    ensures v.AuthView? <==> s.authStep == Login && s.userRole.Some?
    ensures v.AuthView? ==> s.userRole == Some(v.role)
    ensures v == MainView <==> (s.authStep == InApp || (s.authStep == Login && s.userRole.None?))
  {
    if s.authStep == Splash then SplashView
    else if s.authStep == RoleSelect then RoleSelectionView
    else if s.authStep == Login && s.userRole.Some? then AuthView(s.userRole.value)
    else
      assert s.authStep == InApp || s.authStep == Login;
      MainView
  }

  /** The events the shown view has a control or timer for: the splash
      timer, the role buttons, the auth form's submit, the navigation bar
      of the main layout, and the theme switch of the profile screen. */
  predicate Offers(s: AppState, e: Event) {
    match e
    case SplashTimer => ShownView(s) == SplashView
    case ChooseRole(_) => ShownView(s) == RoleSelectionView
    case FinishAuth(_) => ShownView(s).AuthView?
    case ToggleTheme => ShownView(s) == MainView && RenderContent(s.profile, s.activeTab) == Some(ProfileScreen)
    case Navigate(_) => ShownView(s) == MainView
  }

  /** In every reachable state an event is enabled exactly when the view on
      screen offers it. */
  lemma EnabledIffOffered(s: AppState, e: Event)
    requires Inv(s)
    ensures Enabled(s, e) <==> Offers(s, e)
  {
  }

  function Step(s: AppState, e: Event): AppState
    requires Enabled(s, e)
  {
    match e
    case SplashTimer => SplashElapsed(s)
    case ChooseRole(role) => SelectRole(s, role)
    case FinishAuth(data) => CompleteAuth(s, data)
    case ToggleTheme => ToggleDarkMode(s)
    case Navigate(tab) => s.(activeTab := tab)
  }

  /** The position of an authentication step in the flow. */
  function Rank(step: AuthStep): int {
    match step
    case Splash => 0
    case RoleSelect => 1
    case Login => 2
    case InApp => 3
  }

  /** The steps only move forward, one at a time: the splash leads only to
      role selection, role selection only to login, login only into the
      app, and nothing leaves the app. */
  lemma StepAdvancesOneAtATime(s: AppState, e: Event)
    requires Enabled(s, e)
    ensures var r := Step(s, e);
      Rank(r.authStep) == Rank(s.authStep) || Rank(r.authStep) == Rank(s.authStep) + 1
    ensures s.authStep == Splash ==> Step(s, e).authStep == RoleSelect
    ensures s.authStep == InApp ==> Step(s, e).authStep == InApp
  {
  }

  /** What every reachable state satisfies: a role is known from LOGIN on,
      a profile exists exactly inside the app, and it has the chosen role. */
  ghost predicate Inv(s: AppState) {
    && (Rank(s.authStep) >= 2 ==> s.userRole.Some?)
    && (s.profile.Some? <==> s.authStep == InApp)
    && (s.profile.Some? ==> s.profile.value.Role() == s.userRole.value)
  }

  /** Apply `events` in order, or `None` if one is not enabled when it comes. */
  function Run(s: AppState, events: seq<Event>): Option<AppState>
    decreases |events|
  {
    if events == [] then Some(s)
    else if Enabled(s, events[0]) then Run(Step(s, events[0]), events[1..])
    else None
  }

  /** Every state reachable from start-up satisfies `Inv` and has not gone
      back in the flow. */
  lemma {:induction false} RunKeepsInv(s: AppState, events: seq<Event>)
    requires Inv(s)
    ensures Run(s, events).Some? ==> Inv(Run(s, events).value)
    ensures Run(s, events).Some? ==> Rank(Run(s, events).value.authStep) >= Rank(s.authStep)
    decreases |events|
  {
    if events != [] && Enabled(s, events[0]) {
      var next := Step(s, events[0]);
      StepAdvancesOneAtATime(s, events[0]);
      assert Inv(next);
      RunKeepsInv(next, events[1..]);
    }
  }

  lemma StartupSatisfiesInv(savedTheme: Option<string>)
    ensures Inv(Startup(savedTheme))
  {
  }

  // ---------------------------------------------------------------------
  // Screens

  /** The component `renderContent` mounts. */
  datatype Screen =
    | StudentDashboardScreen
    | LmsScreen
    | StudentAssignmentsScreen
    | TutorScreen
    | CommunityScreen
    | ProfileScreen
    | AdminDashboardScreen
    | AdminAssignmentsScreen

  /** The tabs a student has a screen for. */
  predicate IsStudentTab(tab: AppTab) {
    tab == Home || tab == Lms || tab == Assignments || tab == AiTutor || tab == Community || tab == ProfileTab
  }

  /** `renderContent`: nothing without a profile; otherwise the screen for
      the tab, with the role's dashboard for any tab it has no screen for. */
  function RenderContent(profile: Option<Profile>, tab: AppTab): (v: Option<Screen>)
    ensures profile.None? <==> v.None?
    ensures profile.Some? && profile.value.Role() == Student ==>
      && v.value != AdminDashboardScreen && v.value != AdminAssignmentsScreen
      && (!IsStudentTab(tab) ==> v.value == StudentDashboardScreen)
    ensures profile.Some? && profile.value.Role() == Admin ==>
      && (v.value == AdminDashboardScreen || v.value == AdminAssignmentsScreen
          || v.value == CommunityScreen || v.value == ProfileScreen)
      && (tab == Lms || tab == Home || tab == AiTutor ==> v.value == AdminDashboardScreen)
  {
    match profile
    case None => None
    case Some(p) =>
      if p.Role() == Student then
        Some(match tab
          case Home => StudentDashboardScreen
          case Lms => LmsScreen
          case Assignments => StudentAssignmentsScreen
          case AiTutor => TutorScreen
          case Community => CommunityScreen
          case ProfileTab => ProfileScreen
          case _ => StudentDashboardScreen)
      else
        Some(match tab
          case AdminDashboard => AdminDashboardScreen
          case Assignments => AdminAssignmentsScreen
          case Community => CommunityScreen
          case ProfileTab => ProfileScreen
          case _ => AdminDashboardScreen)
  }

  /** The bottom navigation of each role (it reads the role chosen at
      login, which `Inv` ties to the profile's role). */
  function NavTabs(role: UserRole): (r: seq<AppTab>)
    ensures |r| >= 1 && r[0] == (if role == Student then Home else AdminDashboard)
    ensures Community in r && ProfileTab in r
    ensures role == Student ==> Lms in r && AiTutor in r
    ensures role == Student ==> Assignments !in r && AdminDashboard !in r
    ensures role == Admin ==> Assignments in r
    ensures role == Admin ==> Home !in r && Lms !in r && AiTutor !in r
    ensures forall i, j :: 0 <= i < j < |r| ==> r[i] != r[j]
  {
    if role == Student then [Home, Lms, AiTutor, Community, ProfileTab]
    else [AdminDashboard, Assignments, Community, ProfileTab]
  }

  /** Completing onboarding opens the tab of the first navigation button. */
  lemma LandingTabIsFirstButton(s: AppState, data: Registration.FormData)
    requires Enabled(s, FinishAuth(data))
    ensures CompleteAuth(s, data).activeTab == NavTabs(s.userRole.value)[0]
  {
  }

  /** Inside the app, every navigation button leads to its own screen. */
  lemma NavTabsReachDistinctScreens(s: AppState)
    requires Inv(s) && s.authStep == InApp
    ensures var tabs := NavTabs(s.userRole.value);
      forall i, j :: 0 <= i < j < |tabs| ==>
        RenderContent(s.profile, tabs[i]).Some?
        && RenderContent(s.profile, tabs[i]) != RenderContent(s.profile, tabs[j])
  {
  }

  /** The top bar's condition: shown on the home, LMS, community, admin
      dashboard and assignments tabs, so hidden exactly on the tutor and
      profile tabs. */
  function ShowsTopBar(tab: AppTab): (b: bool)
    ensures !b <==> tab == AiTutor || tab == ProfileTab
  {
    tab == Home || tab == Lms || tab == Community || tab == AdminDashboard || tab == Assignments
  }
}

=== FILE: camera.dfy ===
/**
 The stream lifecycle of `CameraCapture` (Views.tsx). Mounting asks the
 device for the rear ('environment') camera, falls back once to the front
 ('user') camera, and signals `onClose` when both requests fail. The
 effect's cleanup stops every track of the stream it holds. Device
 answers are inputs; what `getUserMedia` does is not modelled.
 */
module Camera {
  import Types

  datatype FacingMode = Environment | User

  /** A media track; `stop()` ends it for good. */
  datatype Track = Track(id: string, live: bool)

  datatype MediaStream = MediaStream(tracks: seq<Track>)

  /** Where `startCamera` is: waiting on the first or the second request,
      holding a stream, or given up. */
  datatype Phase = AwaitingEnvironment | AwaitingUser | Streaming | Failed

  /** The state of one mounted capture view: its phase, the `stream`
      variable of the effect, the facing modes requested so far in order,
      whether `onClose` was signalled, and whether the cleanup has run. */
  datatype Capture = Capture(
    phase: Phase,
    stream: Types.Option<MediaStream>,
    requested: seq<FacingMode>,
    closeSignalled: bool,
    unmounted: bool)

  predicate Awaiting(c: Capture) {
    c.phase == AwaitingEnvironment || c.phase == AwaitingUser
  }

  /** No track of the held stream, if any, is still running. */
  predicate NothingLive(c: Capture) {
    c.stream.Some? ==> forall i :: 0 <= i < |c.stream.value.tracks| ==> !c.stream.value.tracks[i].live
  }

  /** Mounting runs the effect: the rear camera is requested first. */
  function Mount(): (c: Capture)
    ensures c.phase == AwaitingEnvironment && c.requested == [Environment]
    ensures c.stream.None? && !c.closeSignalled && !c.unmounted
  {
    Capture(AwaitingEnvironment, Types.None, [Environment], false, false)
  }

  /** The device answers the pending request with a stream or a failure. A
      failed rear request issues the front request; a failed front request
      signals `onClose`. */
  function DeviceAnswered(c: Capture, answer: Types.Option<MediaStream>): (r: Capture)
    requires Awaiting(c)
    ensures r.unmounted == c.unmounted
    ensures answer.Some? ==>
      && r.phase == Streaming && r.stream == answer
      && r.requested == c.requested && r.closeSignalled == c.closeSignalled
    ensures answer.None? && c.phase == AwaitingEnvironment ==>
      && r.phase == AwaitingUser && r.requested == c.requested + [User]
      && r.stream == c.stream && r.closeSignalled == c.closeSignalled
    ensures answer.None? && c.phase == AwaitingUser ==>
      && r.phase == Failed && r.requested == c.requested
      && r.stream == c.stream && r.closeSignalled
  {
    match answer
    case Some(m) => c.(phase := Streaming, stream := answer)
    case None =>
      if c.phase == AwaitingEnvironment then c.(phase := AwaitingUser, requested := c.requested + [User])
      else c.(phase := Failed, closeSignalled := true)
  }

  /** `startCamera` run to completion on the two answers the device gives
      (the second is only consulted when the first fails). */
  function Acquire(rear: Types.Option<MediaStream>, front: Types.Option<MediaStream>): (r: Capture)
    ensures 1 <= |r.requested| <= 2 && r.requested[0] == Environment
    ensures |r.requested| == 2 <==> rear.None?
    ensures |r.requested| == 2 ==> r.requested[1] == User
    ensures r.closeSignalled <==> rear.None? && front.None?
    ensures r.stream == (if rear.Some? then rear else front)
    ensures r.phase == Streaming <==> r.stream.Some?
    ensures r.phase == Failed <==> r.closeSignalled
    ensures !r.unmounted
  {
    var first := DeviceAnswered(Mount(), rear);
    if rear.Some? then first else DeviceAnswered(first, front)
  }

  /** Each facing mode is requested at most once. */
  lemma AcquireRequestsEachModeOnce(rear: Types.Option<MediaStream>, front: Types.Option<MediaStream>)
    ensures var req := Acquire(rear, front).requested;
      forall i, j :: 0 <= i < j < |req| ==> req[i] != req[j]
  {
  }

  /** `track.stop()` on every track: ids and order stay, nothing stays live. */
  function StopTracks(tracks: seq<Track>): (r: seq<Track>)
    ensures |r| == |tracks|
    ensures forall i :: 0 <= i < |tracks| ==> r[i].id == tracks[i].id && !r[i].live
  {
    if tracks == [] then [] else [tracks[0].(live := false)] + StopTracks(tracks[1..])
  }

  /** Stopping tracks that are all stopped changes nothing. */
  lemma {:induction false} StopTracksStopped(tracks: seq<Track>)
    requires forall i :: 0 <= i < |tracks| ==> !tracks[i].live
    ensures StopTracks(tracks) == tracks
    decreases |tracks|
  {
    if tracks != [] {
      StopTracksStopped(tracks[1..]);
      assert tracks == [tracks[0].(live := false)] + tracks[1..];
    }
  }

  /** The effect's cleanup: stop every track of the stream held, if any. */
  function Cleanup(c: Capture): (r: Capture)
    ensures r.unmounted && NothingLive(r)
    ensures r.phase == c.phase && r.requested == c.requested && r.closeSignalled == c.closeSignalled
    ensures c.stream.None? ==> r.stream.None?
    ensures c.stream.Some? ==>
      && r.stream.Some?
      && |r.stream.value.tracks| == |c.stream.value.tracks|
      && (forall i :: 0 <= i < |c.stream.value.tracks| ==>
            r.stream.value.tracks[i].id == c.stream.value.tracks[i].id)
  {
    match c.stream
    case None => c.(unmounted := true)
    case Some(m) => c.(stream := Types.Some(MediaStream(StopTracks(m.tracks))), unmounted := true)
  }

  /** Running the cleanup a second time changes nothing. */
  lemma CleanupIdempotent(c: Capture)
    ensures Cleanup(Cleanup(c)) == Cleanup(c)
  {
    var once := Cleanup(c);
    if once.stream.Some? {
      StopTracksStopped(once.stream.value.tracks);
    }
  }

  /** After both requests fail no stream was ever obtained, so closing the
      view (once or twice) leaves nothing running. */
  lemma FailedAcquisitionHoldsNothing(front: Types.Option<MediaStream>)
    requires front.None?
    ensures Acquire(Types.None, front).stream.None?
    ensures Cleanup(Acquire(Types.None, front)).stream.None?
    ensures Cleanup(Cleanup(Acquire(Types.None, front))).stream.None?
  {
  }

  /** The cleanup only sees a stream the effect already holds: if the view
      is closed while a request is still pending, the stream delivered
      afterwards is kept live and never stopped. */
  lemma LateStreamOutlivesCleanup(m: MediaStream)
    requires |m.tracks| > 0 && m.tracks[0].live
    ensures var late := DeviceAnswered(Cleanup(Mount()), Types.Some(m));
      late.unmounted && late.phase == Streaming && !NothingLive(late)
  {
  }
}

=== FILE: community.dfy ===
/**
 The community feed of `CommunityContainer` (Views.tsx): liking a post and
 publishing a new one. The post id drawn from `Date.now()` is a parameter.
 */
module CommunityFeed {
  import opened Types
  import opened Text

  /** The one-post update of `handleLike`: flip the (truthy) like flag and
      move the count by one in the matching direction. */
  function ToggledPost(p: Post): (q: Post)
    ensures q.Liked() == !p.Liked() && q.liked.Some?
    ensures q.likes == (if p.Liked() then p.likes - 1 else p.likes + 1)
    ensures q.(likes := p.likes, liked := p.liked) == p
  {
    p.(likes := if p.Liked() then p.likes - 1 else p.likes + 1, liked := Some(!p.Liked()))
  }

  /** `handleLike(postId)`: every post with the id is toggled, every other
      post, and the order, stay as they were. */
  function ToggleLike(posts: seq<Post>, postId: string): (r: seq<Post>)
    ensures |r| == |posts|
    ensures forall i :: 0 <= i < |posts| && posts[i].id != postId ==> r[i] == posts[i]
    ensures forall i :: 0 <= i < |posts| && posts[i].id == postId ==> r[i] == ToggledPost(posts[i])
  {
    if posts == [] then []
    else
      var rest := ToggleLike(posts[1..], postId);
      [if posts[0].id == postId then ToggledPost(posts[0]) else posts[0]] + rest
  }

  /** Liking twice undoes the first like: every post has its count and its
      liked state back, and is restored exactly when its `liked` flag was
      present: a matching post whose flag was absent, as in the seeded feed,
      comes back with `liked: false` instead of no flag. */
  lemma ToggleLikeTwice(posts: seq<Post>, postId: string)
    ensures var r := ToggleLike(ToggleLike(posts, postId), postId);
      && |r| == |posts|
      && (forall i :: 0 <= i < |posts| ==>
            r[i].likes == posts[i].likes && r[i].Liked() == posts[i].Liked()
            && r[i].(liked := posts[i].liked) == posts[i])
      && ((forall i :: 0 <= i < |posts| && posts[i].id == postId ==> posts[i].liked.Some?) ==> r == posts)
      && ((exists i :: 0 <= i < |posts| && posts[i].id == postId && posts[i].liked.None?) ==> r != posts)
  {
    var once := ToggleLike(posts, postId);
    var r := ToggleLike(once, postId);
    forall i | 0 <= i < |posts|
      ensures r[i].likes == posts[i].likes && r[i].Liked() == posts[i].Liked()
      ensures r[i].(liked := posts[i].liked) == posts[i]
      ensures posts[i].id != postId || posts[i].liked.Some? ==> r[i] == posts[i]
    {
      assert once[i].id == posts[i].id;
      if posts[i].id == postId && posts[i].liked.Some? {
        assert r[i] == ToggledPost(ToggledPost(posts[i]));
        if posts[i].liked.value {
          assert posts[i].Liked();
        } else {
          assert !posts[i].Liked() && ToggledPost(posts[i]).Liked();
        }
      }
    }
    if forall i :: 0 <= i < |posts| && posts[i].id == postId ==> posts[i].liked.Some? {
      assert forall i :: 0 <= i < |posts| ==> r[i] == posts[i];
    }
    if exists i :: 0 <= i < |posts| && posts[i].id == postId && posts[i].liked.None? {
      var i :| 0 <= i < |posts| && posts[i].id == postId && posts[i].liked.None?;
      assert r[i] == ToggledPost(once[i]) && r[i].liked.Some?;
    }
  }

  /** The composer state: the feed and the draft being written. */
  datatype Composer = Composer(posts: seq<Post>, draftText: string, draftImage: Option<string>)

  /** The author fields `handlePost` reads from the signed-in profile. */
  datatype Author = Author(firstName: string, lastName: string, avatar: string)

  /** The truthiness of the draft image (`!postImage` treats "" as absent). */
  predicate HasImage(image: Option<string>) {
    image.Some? && image.value != []
  }

  /** `handlePost`: a blank draft without an image does nothing; otherwise a
      fresh post heads the feed and the draft is cleared. */
  function Publish(c: Composer, author: Author, id: string): (r: Composer)
    ensures IsBlank(c.draftText) && !HasImage(c.draftImage) ==> r == c
    ensures !IsBlank(c.draftText) || HasImage(c.draftImage) ==>
      && |r.posts| == |c.posts| + 1
      && r.posts[1..] == c.posts
      && r.posts[0].id == id
      && r.posts[0].author == author.firstName + " " + author.lastName
      && r.posts[0].avatar == author.avatar
      && r.posts[0].content == c.draftText && r.posts[0].time == "Just now"
      && r.posts[0].likes == 0 && r.posts[0].comments == 0
      && r.posts[0].liked == Some(false)
      && (HasImage(c.draftImage) ==> r.posts[0].image == c.draftImage)
      && (!HasImage(c.draftImage) ==> r.posts[0].image == None)
      && r.draftText == [] && r.draftImage == None
  {
    if IsBlank(c.draftText) && !HasImage(c.draftImage) then c
    else
      var post := Post(
        id := id,
        author := author.firstName + " " + author.lastName,
        time := "Just now",
        content := c.draftText,
        likes := 0,
        comments := 0,
        image := if HasImage(c.draftImage) then c.draftImage else None,
        avatar := author.avatar,
        liked := Some(false));
      Composer([post] + c.posts, "", None)
  }

  /** A published post can be liked and unliked: liking the new post right
      away gives it one like, and liking it again returns the feed to what
      `handlePost` produced, provided no older post shares its id. */
  lemma PublishThenLikeTwice(c: Composer, author: Author, id: string)
    requires !IsBlank(c.draftText) || HasImage(c.draftImage)
    requires forall i :: 0 <= i < |c.posts| ==> c.posts[i].id != id
    ensures var fed := Publish(c, author, id).posts;
      && ToggleLike(fed, id)[0].likes == 1
      && ToggleLike(fed, id)[0].Liked()
      && ToggleLike(ToggleLike(fed, id), id) == fed
  {
    var fed := Publish(c, author, id).posts;
    ToggleLikeTwice(fed, id);
    assert forall i :: 1 <= i < |fed| ==> fed[i] == c.posts[i - 1];
  }
}

=== FILE: registration.dfy ===
/**
 Onboarding in Views.tsx: the staff access-code check of
 `RoleSelectionView`, and the registration wizard of `AuthView` (username
 sanitising and availability, the step 1 and step 2 guards). The
 simulated delays are collapsed: a timer callback is a separate function
 applied right after the action that armed it.
 */
module Registration {
  import opened Types
  import opened Text
  import opened Seqs
  import opened Constants

  // ---------------------------------------------------------------------
  // Staff verification

  const ACCESS_DENIED: string := "Access Denied. Redirecting to Student Portal..."

  /** What `handleVerify` does with a submitted code: grant the admin
      portal, or show the denial and (after a delay) fall back to the
      student portal. */
  datatype Verification = Granted | Denied(message: string)
  {
    /** The role `onSelectRole` is finally called with. */
    function Role(): UserRole {
      if Granted? then Admin else Student
    }
  }

  function VerifyStaffCode(code: string): (v: Verification)
    ensures v.Granted? <==> code == ADMIN_VERIFICATION_CODE
    ensures v.Denied? ==> v.message == ACCESS_DENIED
    ensures v.Role() == Admin <==> code == ADMIN_VERIFICATION_CODE
  {
    if code == ADMIN_VERIFICATION_CODE then Granted else Denied(ACCESS_DENIED)
  }

  /** The comparison is exact: the field only displays its text in upper
      case, so a code typed in lower case is refused although it looks
      right on screen. */
  lemma LowerCaseCodeDenied()
    ensures VerifyStaffCode("stf-ksitm-2025").Role() == Student
  {
    assert "stf-ksitm-2025"[0] != ADMIN_VERIFICATION_CODE[0];
  }

  // ---------------------------------------------------------------------
  // Registration form

  /** The `formData` record of `AuthView`. */
  datatype FormData = FormData(
    email: string,
    password: string,
    firstName: string,
    lastName: string,
    matricNumber: string,
    department: string,
    level: string,
    staffId: string,
    avatar: string,
    dateOfBirth: string,
    username: string,
    isHOD: bool)

  const INITIAL_FORM: FormData := FormData("", "", "", "", "", "", "ND I", "", "", "", "", false)

  datatype UsernameStatus = Idle | Checking | Available | Taken

  /** The names the availability check reports as taken. */
  const TAKEN_USERNAMES: seq<string> := ["admin", "test", "user", "ksitm", "root"]

  predicate IsUsernameChar(c: char) {
    ('a' <= c <= 'z') || ('0' <= c <= '9') || c == '_'
  }

  /** `value.toLowerCase().replace(/[^a-z0-9_]/g, '')`, one character at a time. */
  function SanitizeUsername(raw: string): (r: string)
    ensures |r| <= |raw|
    ensures forall i :: 0 <= i < |r| ==> IsUsernameChar(r[i])
  {
    if raw == [] then []
    else
      var c := LowerChar(raw[0]);
      (if IsUsernameChar(c) then [c] else []) + SanitizeUsername(raw[1..])
  }

  /** Sanitising is lower-casing followed by keeping the allowed characters. */
  lemma {:induction false} SanitizeIsLowerThenFilter(raw: string)
    ensures SanitizeUsername(raw) == Filter(IsUsernameChar, Lower(raw))
    decreases |raw|
  {
    if raw != [] {
      SanitizeIsLowerThenFilter(raw[1..]);
      assert Lower(raw)[1..] == Lower(raw[1..]);
    }
  }

  /** A name is left alone by sanitising exactly when it is already made of
      allowed characters. */
  lemma {:induction false} SanitizeFixpoint(s: string)
    ensures SanitizeUsername(s) == s <==> forall i :: 0 <= i < |s| ==> IsUsernameChar(s[i])
    decreases |s|
  {
    if s != [] {
      SanitizeFixpoint(s[1..]);
      if forall i :: 0 <= i < |s| ==> IsUsernameChar(s[i]) {
        assert IsUsernameChar(s[0]);
        assert forall i :: 0 <= i < |s[1..]| ==> IsUsernameChar(s[1..][i]) by {
          forall i | 0 <= i < |s[1..]| ensures IsUsernameChar(s[1..][i]) {
            assert s[1..][i] == s[i + 1];
          }
        }
        assert s == [s[0]] + s[1..];
      }
    }
  }

  /** Sanitising twice is sanitising once. */
  lemma SanitizeIdempotent(raw: string)
    ensures SanitizeUsername(SanitizeUsername(raw)) == SanitizeUsername(raw)
  {
    SanitizeFixpoint(SanitizeUsername(raw));
  }

  /** The synchronous part of `handleUsernameChange`: the sanitised name is
      stored, and a check of it is armed when it has at least 3 characters. */
  datatype UsernameEdit = UsernameEdit(form: FormData, status: UsernameStatus, pendingCheck: Option<string>)

  function EditUsername(form: FormData, raw: string): (e: UsernameEdit)
    ensures e.form == form.(username := SanitizeUsername(raw))
    ensures |SanitizeUsername(raw)| < 3 ==> e.status == Idle && e.pendingCheck == None
    ensures |SanitizeUsername(raw)| >= 3 ==>
      e.status == Checking && e.pendingCheck == Some(SanitizeUsername(raw))
  {
    var name := SanitizeUsername(raw);
    var form' := form.(username := name);
    if |name| < 3 then UsernameEdit(form', Idle, None)
    else UsernameEdit(form', Checking, Some(name))
  }

  /** The delayed availability check. */
  function CheckAvailability(name: string): (s: UsernameStatus)
    ensures s == Taken || s == Available
    ensures s == Taken <==> name in TAKEN_USERNAMES
  {
    if name in TAKEN_USERNAMES then Taken else Available
  }

  /** The status shown once the check armed by an edit has fired. */
  function UsernameStatusFor(raw: string): (s: UsernameStatus)
    ensures s != Checking
    ensures s == Idle <==> |SanitizeUsername(raw)| < 3
    ensures s == Available <==> |SanitizeUsername(raw)| >= 3 && SanitizeUsername(raw) !in TAKEN_USERNAMES
  {
    var e := EditUsername(INITIAL_FORM, raw);
    if e.pendingCheck.Some? then CheckAvailability(e.pendingCheck.value) else e.status
  }

  /** Every reserved name is long enough to be checked, so a name is
      reported taken exactly when it is reserved. */
  lemma TakenIffReserved(raw: string)
    ensures UsernameStatusFor(raw) == Taken <==> SanitizeUsername(raw) in TAKEN_USERNAMES
  {
    assert forall k :: 0 <= k < |TAKEN_USERNAMES| ==> |TAKEN_USERNAMES[k]| >= 3;
  }

  // ---------------------------------------------------------------------
  // Wizard steps

  const FILL_ALL_FIELDS: string := "Please fill all fields"

  datatype Step1Outcome = Alert(message: string) | AdvanceToStep2

  /** `handleRegisterStep1`: every name, email and department field must be non-empty. */
  function RegisterStep1(form: FormData): (o: Step1Outcome)
    ensures o.AdvanceToStep2? <==>
      form.firstName != [] && form.lastName != [] && form.email != [] && form.department != []
    ensures o.Alert? ==> o.message == FILL_ALL_FIELDS
  {
    if form.firstName == [] || form.lastName == [] || form.email == [] || form.department == [] then
      Alert(FILL_ALL_FIELDS)
    else
      AdvanceToStep2
  }

  datatype Step2Outcome = Stay | Complete(data: FormData)

  /** `handleRegisterStep2`: a student needs a name not reported taken, a
      date of birth and a username; staff always go through. */
  function RegisterStep2(role: UserRole, status: UsernameStatus, form: FormData): (o: Step2Outcome)
    ensures o.Complete? ==> o.data == form
    ensures role == Admin ==> o.Complete?
    ensures role == Student ==>
      (o.Complete? <==> status != Taken && form.dateOfBirth != [] && form.username != [])
  {
    if role == Student && (status == Taken || form.dateOfBirth == [] || form.username == []) then Stay
    else Complete(form)
  }

  /** A student who types a reserved name (in any letter case, with any
      stray characters) cannot finish registering once the check has fired;
      one who types a free name of 3 or more allowed characters and gives a
      date of birth can. */
  lemma UsernameGatesRegistration(form: FormData, raw: string)
    ensures var f := EditUsername(form, raw).form;
      SanitizeUsername(raw) in TAKEN_USERNAMES ==>
        RegisterStep2(Student, UsernameStatusFor(raw), f) == Stay
    ensures var f := EditUsername(form, raw).form;
      UsernameStatusFor(raw) == Available && form.dateOfBirth != [] ==>
        RegisterStep2(Student, UsernameStatusFor(raw), f) == Complete(f)
  {
    TakenIffReserved(raw);
  }
}

=== FILE: search.dfy ===
/**
 The two list filters of Views.tsx: the global search over courses, posts
 and announcements (`GlobalSearch`), and the head-of-department student
 list of `AdminDashboard`. The mock lists they read are parameters.
 */
module Search {
  import opened Types
  import opened Text
  import opened Seqs

  datatype SearchResults = SearchResults(
    courses: seq<Course>,
    posts: seq<Post>,
    announcements: seq<Announcement>)

  /** A course matches on its title or its code. */
  predicate CourseMatches(q: string, c: Course) {
    Contains(Lower(c.title), q) || Contains(Lower(c.code), q)
  }

  /** A post matches on its content or its author. */
  predicate PostMatches(q: string, p: Post) {
    Contains(Lower(p.content), q) || Contains(Lower(p.author), q)
  }

  /** An announcement matches on its title or its content. */
  predicate AnnouncementMatches(q: string, a: Announcement) {
    Contains(Lower(a.title), q) || Contains(Lower(a.content), q)
  }

  /** The courses list of the search results, for a lower-cased query. */
  function MatchingCourses(q: string, courses: seq<Course>): (r: seq<Course>)
    ensures IsSubsequence(r, courses)
    ensures forall c :: c in courses ==> (c in r <==> CourseMatches(q, c))
    ensures forall c :: multiset(r)[c] == (if CourseMatches(q, c) then multiset(courses)[c] else 0)
  {
    FilterMembers(c => CourseMatches(q, c), courses);
    Filter(c => CourseMatches(q, c), courses)
  }

  /** The posts list of the search results, for a lower-cased query. */
  function MatchingPosts(q: string, posts: seq<Post>): (r: seq<Post>)
    ensures IsSubsequence(r, posts)
    ensures forall p :: p in posts ==> (p in r <==> PostMatches(q, p))
    ensures forall p :: multiset(r)[p] == (if PostMatches(q, p) then multiset(posts)[p] else 0)
  {
    FilterMembers(p => PostMatches(q, p), posts);
    Filter(p => PostMatches(q, p), posts)
  }

  /** The announcements list of the search results, for a lower-cased query. */
  function MatchingAnnouncements(q: string, announcements: seq<Announcement>): (r: seq<Announcement>)
    ensures IsSubsequence(r, announcements)
    ensures forall a :: a in announcements ==> (a in r <==> AnnouncementMatches(q, a))
    ensures forall a ::
      multiset(r)[a] == (if AnnouncementMatches(q, a) then multiset(announcements)[a] else 0)
  {
    FilterMembers(a => AnnouncementMatches(q, a), announcements);
    Filter(a => AnnouncementMatches(q, a), announcements)
  }

  /** The `results` memo of `GlobalSearch`. A blank query finds nothing;
      otherwise the query, lower-cased but not trimmed, must occur in one
      of the lower-cased fields. Each list keeps its source order. */
  function GlobalSearch(query: string, courses: seq<Course>, posts: seq<Post>, announcements: seq<Announcement>)
    : (r: SearchResults)
    ensures IsBlank(query) ==> r == SearchResults([], [], [])
    ensures !IsBlank(query) ==>
      && IsSubsequence(r.courses, courses)
      && IsSubsequence(r.posts, posts)
      && IsSubsequence(r.announcements, announcements)
      && (forall c :: c in courses ==> (c in r.courses <==> CourseMatches(Lower(query), c)))
      && (forall p :: p in posts ==> (p in r.posts <==> PostMatches(Lower(query), p)))
      && (forall a :: a in announcements ==>
            (a in r.announcements <==> AnnouncementMatches(Lower(query), a)))
    ensures !IsBlank(query) ==>
      && (forall c :: multiset(r.courses)[c] ==
            (if CourseMatches(Lower(query), c) then multiset(courses)[c] else 0))
      && (forall p :: multiset(r.posts)[p] ==
            (if PostMatches(Lower(query), p) then multiset(posts)[p] else 0))
      && (forall a :: multiset(r.announcements)[a] ==
            (if AnnouncementMatches(Lower(query), a) then multiset(announcements)[a] else 0))
  {
    if IsBlank(query) then SearchResults([], [], [])
    else
      var q := Lower(query);
      SearchResults(MatchingCourses(q, courses), MatchingPosts(q, posts), MatchingAnnouncements(q, announcements))
  }

  /** Searching is insensitive to the letter case of the query. */
  lemma SearchIgnoresQueryCase(query: string, courses: seq<Course>, posts: seq<Post>, announcements: seq<Announcement>)
    ensures GlobalSearch(Lower(query), courses, posts, announcements)
         == GlobalSearch(query, courses, posts, announcements)
  {
    LowerIdempotent(query);
    LowerKeepsBlank(query);
  }

  /** Lower-casing twice is lower-casing once. */
  lemma LowerIdempotent(s: string)
    ensures Lower(Lower(s)) == Lower(s)
  {
    assert forall i :: 0 <= i < |s| ==> LowerChar(LowerChar(s[i])) == LowerChar(s[i]);
  }

  /** Lower-casing does not touch whitespace, so it keeps a query blank or not. */
  lemma {:induction false} LowerKeepsBlank(s: string)
    ensures IsBlank(Lower(s)) <==> IsBlank(s)
    decreases |s|
  {
    if s != [] {
      LowerKeepsBlank(s[1..]);
      assert Lower(s)[1..] == Lower(s[1..]);
      assert IsWhitespace(s[0]) ==> LowerChar(s[0]) == s[0];
    }
  }

  /** The `departmentStudents` memo of `AdminDashboard`: nothing for a
      lecturer who is not head of department, else exactly the students of
      the profile's department, in list order. */
  function DepartmentStudents(profile: AdminProfile, students: seq<StudentProfile>): (r: seq<StudentProfile>)
    ensures !profile.IsHod() ==> r == []
    ensures profile.IsHod() ==>
      && IsSubsequence(r, students)
      && (forall s :: s in students ==> (s in r <==> s.department == profile.department))
      && (forall s :: multiset(r)[s] ==
            (if s.department == profile.department then multiset(students)[s] else 0))
  {
    if !profile.IsHod() then []
    else
      FilterMembers((s: StudentProfile) => s.department == profile.department, students);
      Filter((s: StudentProfile) => s.department == profile.department, students)
  }
}

=== FILE: seqs.dfy ===
/**
 Sequence helpers shared by the views: `Array.prototype.filter`, and the
 prefix and subsequence relations the contracts are stated with.
 */
module Seqs {

  /** `longer` starts with `shorter`: nothing in `shorter` was removed or reordered. */
  ghost predicate Extends<T>(longer: seq<T>, shorter: seq<T>) {
    |shorter| <= |longer| && longer[..|shorter|] == shorter
  }

  lemma ExtendsTrans<T>(a: seq<T>, b: seq<T>, c: seq<T>)
    requires Extends(b, a) && Extends(c, b)
    ensures Extends(c, a)
  {
    assert c[..|a|] == c[..|b|][..|a|];
  }

  /** `a` is an order-preserving subsequence of `b`. */
  ghost predicate IsSubsequence<T>(a: seq<T>, b: seq<T>)
    decreases |b|
  {
    if a == [] then true
    else if b == [] then false
    else if a[0] == b[0] then IsSubsequence(a[1..], b[1..])
    else IsSubsequence(a, b[1..])
  }

  /** `r` holds every element of `s` that passes `p`, with its number of
      occurrences, and nothing else. */
  ghost predicate KeepsCounts<T(!new)>(p: T -> bool, r: seq<T>, s: seq<T>) {
    forall x :: multiset(r)[x] == (if p(x) then multiset(s)[x] else 0)
  }

  /** The counting step of `Filter`: the head of `s` is kept exactly when it passes. */
  lemma FilterCountsStep<T(!new)>(p: T -> bool, s: seq<T>, rest: seq<T>)
    requires s != [] && KeepsCounts(p, rest, s[1..])
    ensures KeepsCounts(p, if p(s[0]) then [s[0]] + rest else rest, s)
  {
    var r := if p(s[0]) then [s[0]] + rest else rest;
    assert s == [s[0]] + s[1..];
    forall x ensures multiset(r)[x] == (if p(x) then multiset(s)[x] else 0) {
      assert multiset(s)[x] == multiset{s[0]}[x] + multiset(s[1..])[x];
      if p(s[0]) {
        assert multiset(r)[x] == multiset{s[0]}[x] + multiset(rest)[x];
      }
    }
  }

  /** `s.filter(p)`. */
  function Filter<T(!new)>(p: T -> bool, s: seq<T>): (r: seq<T>)
    ensures |r| <= |s|
    ensures IsSubsequence(r, s)
    ensures KeepsCounts(p, r, s)
    ensures (forall i :: 0 <= i < |s| ==> p(s[i])) ==> r == s
  {
    if s == [] then []
    else
      var rest := Filter(p, s[1..]);
      FilterCountsStep(p, s, rest);
      if p(s[0]) then
        var r := [s[0]] + rest;
        assert r[1..] == rest;
        r
      else
        rest
  }

  /** An element of the source is kept by `Filter` exactly when it passes. */
  lemma FilterMembers<T(!new)>(p: T -> bool, s: seq<T>)
    ensures forall x :: x in s ==> (x in Filter(p, s) <==> p(x))
  {
    var r := Filter(p, s);
    forall x | x in s ensures x in r <==> p(x) {
      assert multiset(r)[x] == (if p(x) then multiset(s)[x] else 0);
    }
  }
}

=== FILE: text.dfy ===
/**
 String helpers shared by the views: JavaScript's `trim`, ASCII
 `toLowerCase` and `includes` on strings.
 */
module Text {

  /** The code points JavaScript's `String.prototype.trim` strips: the
      WhiteSpace and LineTerminator productions of ECMAScript. */
  predicate IsWhitespace(c: char) {
    || c == ' ' || c == '\t' || c == '\n' || c == '\r'
    || c == '\U{000B}' || c == '\U{000C}' || c == '\U{00A0}' || c == '\U{FEFF}'
    || c == '\U{1680}' || ('\U{2000}' <= c <= '\U{200A}')
    || c == '\U{2028}' || c == '\U{2029}' || c == '\U{202F}' || c == '\U{205F}'
    || c == '\U{3000}'
  }

  ghost predicate AllWhitespace(s: string) {
    forall i :: 0 <= i < |s| ==> IsWhitespace(s[i])
  }

  /** `s.trimStart()`: the suffix of `s` left after dropping leading whitespace. */
  function TrimStart(s: string): (r: string)
    ensures |r| <= |s| && r == s[|s| - |r|..]
    ensures r == [] || !IsWhitespace(r[0])
    ensures forall i :: 0 <= i < |s| - |r| ==> IsWhitespace(s[i])
  {
    if |s| > 0 && IsWhitespace(s[0]) then TrimStart(s[1..]) else s
  }

  /** `s.trimEnd()`: the prefix of `s` left after dropping trailing whitespace. */
  function TrimEnd(s: string): (r: string)
    ensures |r| <= |s| && r == s[..|r|]
    ensures r == [] || !IsWhitespace(r[|r| - 1])
    ensures forall i :: |r| <= i < |s| ==> IsWhitespace(s[i])
  {
    if |s| > 0 && IsWhitespace(s[|s| - 1]) then TrimEnd(s[..|s| - 1]) else s
  }

  /** `r` is the slice of `s` starting at `i`, and every character of `s`
      outside that slice is whitespace. */
  ghost predicate TrimmedAt(s: string, r: string, i: int) {
    && 0 <= i <= |s| - |r| && r == s[i..i + |r|]
    && (forall k :: 0 <= k < i || i + |r| <= k < |s| ==> IsWhitespace(s[k]))
  }

  /** A prefix `r` of a suffix `t` of `s`, each cut off at whitespace only,
      is a trimmed slice of `s`. */
  lemma TrimmedSlice(s: string, t: string, r: string)
    requires |t| <= |s| && t == s[|s| - |t|..]
    requires forall k :: 0 <= k < |s| - |t| ==> IsWhitespace(s[k])
    requires |r| <= |t| && r == t[..|r|]
    requires forall k :: |r| <= k < |t| ==> IsWhitespace(t[k])
    ensures TrimmedAt(s, r, |s| - |t|)
  {
    var i := |s| - |t|;
    assert s[i..][..|r|] == s[i..i + |r|];
    forall k | i + |r| <= k < |s| ensures IsWhitespace(s[k]) {
      assert s[k] == t[k - i];
    }
  }

  /** `s.trim()`: the input with its leading and trailing whitespace, and
      nothing else, removed. */
  function Trim(s: string): (r: string)
    ensures |r| <= |s|
    ensures exists i :: TrimmedAt(s, r, i)
    ensures r == [] || (!IsWhitespace(r[0]) && !IsWhitespace(r[|r| - 1]))
    ensures r == [] <==> AllWhitespace(s)
  {
    var t := TrimStart(s);
    var r := TrimEnd(t);
    assert t != [] ==> r != [] by {
      if t != [] {
        assert !IsWhitespace(t[0]);
      }
    }
    TrimmedSlice(s, t, r);
    r
  }

  /** The test `!s.trim()` the views use to reject blank input: every
      character is whitespace. `BlankIffTrimEmpty` ties it to `Trim`. */
  predicate IsBlank(s: string) {
    s == [] || (IsWhitespace(s[0]) && IsBlank(s[1..]))
  }

  /** A string is blank exactly when trimming it leaves the empty string. */
  lemma {:induction false} BlankIffTrimEmpty(s: string)
    ensures IsBlank(s) <==> Trim(s) == []
    decreases |s|
  {
    if s != [] {
      BlankIffTrimEmpty(s[1..]);
      assert Trim(s[1..]) == [] <==> AllWhitespace(s[1..]);
      assert AllWhitespace(s) <==> IsWhitespace(s[0]) && AllWhitespace(s[1..]) by {
        assert forall i :: 1 <= i < |s| ==> s[i] == s[1..][i - 1];
      }
    }
  }

  /** ASCII `toLowerCase` of one character. */
  function LowerChar(c: char): (r: char)
    ensures !('A' <= r <= 'Z')
    ensures !('A' <= c <= 'Z') ==> r == c
    ensures 'A' <= c <= 'Z' ==> r as int == c as int + 32
  {
    if 'A' <= c <= 'Z' then (c as int + 32) as char else c
  }

  /** ASCII `toLowerCase` of a string. */
  function Lower(s: string): (r: string)
    ensures |r| == |s|
    ensures forall i :: 0 <= i < |s| ==> r[i] == LowerChar(s[i])
  {
    if s == [] then [] else [LowerChar(s[0])] + Lower(s[1..])
  }

  /** `t` occurs in `s` starting at index `i`. */
  ghost predicate OccursAt(s: string, t: string, i: int) {
    0 <= i && i + |t| <= |s| && s[i..i + |t|] == t
  }

  /** `s.startsWith(t)`. */
  function StartsWith(s: string, t: string): (b: bool)
    ensures b <==> OccursAt(s, t, 0)
  {
    |t| <= |s| && s[..|t|] == t
  }

  /** Dropping the first character of `s` shifts every occurrence in it by one. */
  lemma OccursShift(s: string, t: string, i: int)
    requires s != [] && 0 <= i
    ensures OccursAt(s[1..], t, i) <==> OccursAt(s, t, i + 1)
  {
    if 0 <= i && i + |t| <= |s| - 1 {
      assert s[1..][i..i + |t|] == s[i + 1..i + 1 + |t|];
    }
  }

  /** `s.includes(t)`: some occurrence of `t` in `s`, the empty string occurring everywhere. */
  function Contains(s: string, t: string): (b: bool)
    ensures b <==> exists i :: OccursAt(s, t, i)
  {
    if StartsWith(s, t) then
      assert OccursAt(s, t, 0);
      true
    else if s == [] then
      assert forall i :: !OccursAt(s, t, i);
      false
    else
      var b := Contains(s[1..], t);
      assert b ==> exists i :: OccursAt(s, t, i) by {
        if b {
          var j :| OccursAt(s[1..], t, j);
          OccursShift(s, t, j);
        }
      }
      assert (exists i :: OccursAt(s, t, i)) ==> b by {
        if exists i :: OccursAt(s, t, i) {
          var i :| OccursAt(s, t, i);
          assert i != 0;
          OccursShift(s, t, i - 1);
        }
      }
      b
  }
}

=== FILE: tutor.dfy ===
/**
 The AI tutor's transcript manager (AITutor.tsx). A session is the
 component's state: the transcript, the input box and the `loading` flag.
 Sending is split into its two halves: `Send` is the synchronous part of
 `handleSend` up to the completion call and yields the request it issues;
 `Resolve` is the continuation once the completion service has answered.
 The service's answer is an abstract `Outcome`; `Date.now()` values are
 passed in as `Stamp`s.
 */
module Tutor {
  import opened Types
  import opened Text
  import opened Seqs

  const WELCOME_TEXT: string :=
    "Hello! I am your KSITM AI Tutor. I can help you summarize notes, explain complex topics, or quiz you for exams. What are we learning today?"

  /** Shown when the service answers without usable text. */
  const FALLBACK_TEXT: string := "I'm having trouble thinking right now. Please try again."

  /** Shown, flagged as an error, when the completion call fails. */
  const ERROR_TEXT: string :=
    "Sorry, I encountered an error connecting to the server. Please check your connection."

  /** The persona directive sent in the request's configuration. */
  const SYSTEM_INSTRUCTION: string :=
    "You are a friendly, encouraging, and knowledgeable AI Tutor for students at Katsina State Institute of Technology & Management (KSITM). \n"
    + "Your goal is to help students understand their courses (Computer Science, Engineering, Management, etc.).\n"
    + "- Be concise but helpful.\n"
    + "- Use simple English.\n"
    + "- If asked for a quiz, generate 3-5 multiple choice questions.\n"
    + "- If asked to summarize, provide bullet points.\n"
    + "- Always be polite and encouraging."

  /** An id and a timestamp, the values the component draws from `Date.now()`. */
  datatype Stamp = Stamp(id: string, time: int)

  datatype Session = Session(messages: seq<ChatMessage>, input: string, loading: bool)

  /** One `{ role, parts: [{ text }] }` entry of the request's `contents`. */
  datatype Content = Content(role: ChatRole, text: string)

  /** What is handed to the completion service (the model name left out). */
  datatype Request = Request(contents: seq<Content>, systemInstruction: string)

  /** How the completion call ends: a response with a text, a response
      without one, or a thrown error. */
  datatype Outcome = Answer(text: string) | NoText | Failure

  /** The transcript shape the component keeps between user actions: the
      welcome turn, then alternating user and model turns, with `loading`
      set exactly while a user turn awaits its answer. */
  ghost predicate WellFormed(s: Session) {
    && |s.messages| >= 1
    && s.messages[0].role == Model && !s.messages[0].Failed()
    && (forall i :: 1 <= i < |s.messages| ==> s.messages[i].role == (if i % 2 == 1 then User else Model))
    && (forall i :: 0 <= i < |s.messages| && s.messages[i].role == User ==> s.messages[i].isError == None)
    && (s.loading <==> |s.messages| % 2 == 0)
  }

  /** The component's initial state, its welcome turn stamped at mount. */
  function Initial(now: int): (s: Session)
    ensures |s.messages| == 1 && s.messages[0].role == Model && !s.messages[0].Failed()
    ensures s.messages[0].id == "welcome" && s.messages[0].text == WELCOME_TEXT && s.messages[0].timestamp == now
    ensures s.input == [] && !s.loading
    ensures WellFormed(s)
  {
    Session([ChatMessage("welcome", Model, WELCOME_TEXT, now, None)], "", false)
  }

  /** `textOverride || input`: a non-empty override wins over the input box. */
  function TextToSend(textOverride: Option<string>, input: string): string {
    if textOverride.Some? && textOverride.value != [] then textOverride.value else input
  }

  /** The prior transcript as request contents. */
  function History(ms: seq<ChatMessage>): (h: seq<Content>)
    ensures |h| == |ms|
    ensures forall i :: 0 <= i < |ms| ==> h[i].role == ms[i].role && h[i].text == ms[i].text
  {
    seq(|ms|, i requires 0 <= i < |ms| => Content(ms[i].role, ms[i].text))
  }

  /** `req` replays `prior` in order, then the new user entry `t`, with the
      persona carried beside the contents. */
  ghost predicate Conveys(req: Request, prior: seq<ChatMessage>, t: string) {
    && |req.contents| == |prior| + 1
    && (forall i :: 0 <= i < |prior| ==>
          req.contents[i].role == prior[i].role && req.contents[i].text == prior[i].text)
    && req.contents[|prior|] == Content(User, t)
    && req.systemInstruction == SYSTEM_INSTRUCTION
  }

  /** The synchronous half of `handleSend`: reject a blank text, else append
      the user turn, clear the input, raise `loading` and issue the request.
      The input and send button are disabled while loading, so a send is
      only modelled from an idle session. */
  function Send(s: Session, textOverride: Option<string>, sent: Stamp): (r: (Session, Option<Request>))
    requires !s.loading
    ensures var t := TextToSend(textOverride, s.input);
      IsBlank(t) ==> r.0 == s && r.1 == None
    ensures var t := TextToSend(textOverride, s.input);
      !IsBlank(t) ==>
        && |r.0.messages| == |s.messages| + 1
        && Extends(r.0.messages, s.messages)
        && r.0.messages[|s.messages|] == ChatMessage(sent.id, User, t, sent.time, None)
        && r.0.input == [] && r.0.loading
        && r.1.Some? && Conveys(r.1.value, s.messages, t)
  {
    var t := TextToSend(textOverride, s.input);
    if IsBlank(t) then (s, None)
    else
      var userMsg := ChatMessage(sent.id, User, t, sent.time, None);
      var request := Request(History(s.messages) + [Content(User, t)], SYSTEM_INSTRUCTION);
      var s' := Session(s.messages + [userMsg], "", true);
      assert s'.messages[..|s.messages|] == s.messages;
      (s', Some(request))
  }

  /** The text of the model turn a non-failing response produces:
      `response.text || FALLBACK_TEXT`. */
  function ReplyText(outcome: Outcome): (t: string)
    requires !outcome.Failure?
    ensures t != []
    ensures outcome.Answer? && outcome.text != [] ==> t == outcome.text
    ensures outcome.NoText? || (outcome.Answer? && outcome.text == []) ==> t == FALLBACK_TEXT
  {
    if outcome.Answer? && outcome.text != [] then outcome.text else FALLBACK_TEXT
  }

  /** The continuation of `handleSend`: append exactly one model turn for the
      outcome, then (the `finally` block) clear `loading`. */
  function Resolve(s: Session, outcome: Outcome, replied: Stamp): (r: Session)
    requires s.loading
    ensures |r.messages| == |s.messages| + 1
    ensures Extends(r.messages, s.messages)
    ensures var m := r.messages[|s.messages|];
      && m.role == Model && m.id == replied.id && m.timestamp == replied.time
      && (outcome.Failure? ==> m.text == ERROR_TEXT && m.isError == Some(true))
      && (!outcome.Failure? ==> m.isError == None && m.text == ReplyText(outcome))
    ensures !r.loading && r.input == s.input
  {
    var reply :=
      if outcome.Failure? then ChatMessage(replied.id, Model, ERROR_TEXT, replied.time, Some(true))
      else ChatMessage(replied.id, Model, ReplyText(outcome), replied.time, None);
    var r := Session(s.messages + [reply], s.input, false);
    assert r.messages[..|s.messages|] == s.messages;
    r
  }

  /** A send keeps the transcript well formed: the new turn is a user turn
      at an odd position and `loading` now marks it as awaiting its answer. */
  lemma SendKeepsWellFormed(s: Session, textOverride: Option<string>, sent: Stamp)
    requires !s.loading && WellFormed(s)
    ensures WellFormed(Send(s, textOverride, sent).0)
  {
    var r := Send(s, textOverride, sent).0;
    if r != s {
      assert forall i :: 0 <= i < |s.messages| ==> r.messages[i] == s.messages[i];
    }
  }

  /** A resolution keeps the transcript well formed: the answer is a model
      turn at an even position and `loading` is cleared. */
  lemma ResolveKeepsWellFormed(s: Session, outcome: Outcome, replied: Stamp)
    requires s.loading && WellFormed(s)
    ensures WellFormed(Resolve(s, outcome, replied))
  {
    var r := Resolve(s, outcome, replied);
    assert forall i :: 0 <= i < |s.messages| ==> r.messages[i] == s.messages[i];
  }

  /** `disabled={loading}` on the input box. */
  predicate InputEnabled(s: Session) {
    !s.loading
  }

  /** `disabled={loading || !input.trim()}` on the send button. */
  predicate SendButtonEnabled(s: Session) {
    !s.loading && !IsBlank(s.input)
  }

  /** Pressing an enabled send button always records the typed text. */
  lemma SendButtonSends(s: Session, sent: Stamp)
    requires SendButtonEnabled(s)
    ensures var r := Send(s, None, sent).0;
      |r.messages| == |s.messages| + 1 && r.messages[|s.messages|].text == s.input
      && r.loading && !SendButtonEnabled(r) && !InputEnabled(r)
  {
  }

  /** One typed message and its answer, with the two `Date.now()` stamps. */
  datatype Exchange = Exchange(text: string, outcome: Outcome, sent: Stamp, replied: Stamp)

  /** The user types `x.text`, presses send, and the call resolves with
      `x.outcome` before anything else happens. */
  function Round(s: Session, x: Exchange): (r: Session)
    requires !s.loading
    ensures !r.loading
    ensures Extends(r.messages, s.messages)
    ensures IsBlank(x.text) ==> r.messages == s.messages && r.input == x.text
    ensures !IsBlank(x.text) ==>
      && |r.messages| == |s.messages| + 2
      && r.messages[|s.messages|].role == User
      && r.messages[|s.messages|].text == x.text
      && r.messages[|s.messages| + 1].role == Model
      && r.input == []
  {
    var typed := s.(input := x.text);
    var pending := Send(typed, None, x.sent).0;
    if IsBlank(x.text) then
      assert s.messages[..|s.messages|] == s.messages;
      pending
    else
      var r := Resolve(pending, x.outcome, x.replied);
      ExtendsTrans(s.messages, pending.messages, r.messages);
      r
  }

  /** A round keeps the transcript well formed. */
  lemma RoundKeepsWellFormed(s: Session, x: Exchange)
    requires !s.loading && WellFormed(s)
    ensures WellFormed(Round(s, x))
  {
    var typed := s.(input := x.text);
    assert WellFormed(typed);
    SendKeepsWellFormed(typed, None, x.sent);
    var pending := Send(typed, None, x.sent).0;
    if !IsBlank(x.text) {
      ResolveKeepsWellFormed(pending, x.outcome, x.replied);
    }
  }

  /** A sequence of exchanges, each resolving before the next is typed,
      within one mount of the tutor view. The transcript only grows: no turn
      is ever removed or reordered, whatever is typed. */
  function Conversation(s: Session, xs: seq<Exchange>): (r: Session)
    requires !s.loading
    ensures !r.loading
    ensures Extends(r.messages, s.messages)
    decreases |xs|
  {
    if xs == [] then
      assert s.messages[..|s.messages|] == s.messages;
      s
    else
      var s1 := Round(s, xs[0]);
      var r := Conversation(s1, xs[1..]);
      ExtendsTrans(s.messages, s1.messages, r.messages);
      r
  }

  /** Position `pos` of `ms` holds a user turn with `text`, answered by the
      model turn right after it. */
  ghost predicate AnsweredAt(ms: seq<ChatMessage>, pos: int, text: string) {
    0 <= pos && pos + 1 < |ms|
    && ms[pos].role == User && ms[pos].text == text && ms[pos + 1].role == Model
  }

  /** Every exchange of `xs` types a non-blank text. */
  predicate AllSent(xs: seq<Exchange>) {
    forall k :: 0 <= k < |xs| ==> !IsBlank(xs[k].text)
  }

  /** The inductive step of `ConversationAppends`, on the transcripts alone:
      one answered exchange followed by the answered rest. */
  lemma AnsweredStep(ms: seq<ChatMessage>, mid: seq<ChatMessage>, n: int, xs: seq<Exchange>)
    requires xs != [] && 0 <= n && |mid| == n + 2
    requires AnsweredAt(mid, n, xs[0].text) && Extends(ms, mid)
    requires forall k :: 0 <= k < |xs| - 1 ==> AnsweredAt(ms, n + 2 + 2 * k, xs[1..][k].text)
    ensures forall k :: 0 <= k < |xs| ==> AnsweredAt(ms, n + 2 * k, xs[k].text)
  {
    assert AnsweredAt(ms, n, xs[0].text) by {
      assert ms[n] == ms[..|mid|][n];
      assert ms[n + 1] == ms[..|mid|][n + 1];
    }
    forall k | 1 <= k < |xs|
      ensures AnsweredAt(ms, n + 2 * k, xs[k].text)
    {
      var j := k - 1;
      assert xs[1..][j] == xs[k];
      assert AnsweredAt(ms, n + 2 + 2 * j, xs[1..][j].text);
    }
  }

  /** The exchanges after the first are all sent too. */
  lemma AllSentTail(xs: seq<Exchange>)
    requires xs != [] && AllSent(xs)
    ensures !IsBlank(xs[0].text) && AllSent(xs[1..])
  {
    forall k | 0 <= k < |xs| - 1 ensures !IsBlank(xs[1..][k].text) {
      assert xs[1..][k] == xs[k + 1];
    }
  }

  /** When every exchange carries a non-blank text, a conversation adds
      exactly two turns per exchange. */
  lemma {:induction false} ConversationLength(s: Session, xs: seq<Exchange>)
    requires !s.loading && AllSent(xs)
    ensures |Conversation(s, xs).messages| == |s.messages| + 2 * |xs|
    decreases |xs|
  {
    if xs != [] {
      AllSentTail(xs);
      ConversationLength(Round(s, xs[0]), xs[1..]);
    }
  }

  /** When every exchange carries a non-blank text, each one leaves the
      user's text answered by one model turn, in call order. */
  lemma {:induction false} ConversationAppends(s: Session, xs: seq<Exchange>)
    requires !s.loading && AllSent(xs)
    ensures forall k :: 0 <= k < |xs| ==>
      AnsweredAt(Conversation(s, xs).messages, |s.messages| + 2 * k, xs[k].text)
    decreases |xs|
  {
    if xs != [] {
      var s1 := Round(s, xs[0]);
      AllSentTail(xs);
      ConversationAppends(s1, xs[1..]);
      AnsweredStep(Conversation(s1, xs[1..]).messages, s1.messages, |s.messages|, xs);
    }
  }

  /** Any conversation started from the initial state keeps the transcript
      well formed: never empty, the welcome turn first, turns alternating. */
  lemma {:induction false} ConversationWellFormed(s: Session, xs: seq<Exchange>)
    requires !s.loading && WellFormed(s)
    ensures WellFormed(Conversation(s, xs))
    ensures |Conversation(s, xs).messages| >= 1
    ensures Conversation(s, xs).messages[0] == s.messages[0]
    decreases |xs|
  {
    if xs != [] {
      var s1 := Round(s, xs[0]);
      RoundKeepsWellFormed(s, xs[0]);
      ConversationWellFormed(s1, xs[1..]);
      assert s1.messages[0] == s1.messages[..|s.messages|][0];
    }
  }
}

=== FILE: types.dfy ===
/**
 The records of types.ts that the modelled views touch. Optional TypeScript
 fields (`field?: T`) become `Option<T>`; `undefined` is `None`.
 */
module Types {

  datatype Option<T> = None | Some(value: T)

  /** `AppTab`: the screens reachable from the bottom navigation. */
  datatype AppTab = Home | Lms | Assignments | AiTutor | Community | ProfileTab | AdminDashboard

  /** `UserRole`. */
  datatype UserRole = Student | Admin

  /** `ChatMessage.role`. */
  datatype ChatRole = User | Model

  /** `ChatMessage`: one turn of the tutor transcript. */
  datatype ChatMessage = ChatMessage(
    id: string,
    role: ChatRole,
    text: string,
    timestamp: int,
    isError: Option<bool>)
  {
    /** The truthiness of `isError`, which is what the transcript renders. */
    predicate Failed() {
      isError == Some(true)
    }
  }

  /** `Post`: one entry of the community feed. */
  datatype Post = Post(
    id: string,
    author: string,
    time: string,
    content: string,
    likes: int,
    comments: int,
    image: Option<string>,
    avatar: string,
    liked: Option<bool>)
  {
    /** The truthiness of `liked`; an absent flag reads as not liked. */
    predicate Liked() {
      liked == Some(true)
    }
  }

  /** `Course`, the fields the search reads and the rest. */
  datatype Course = Course(
    id: string,
    code: string,
    title: string,
    progress: int,
    topics: seq<string>,
    nextClass: Option<string>)

  datatype AnnouncementKind = Academic | General | Urgent

  /** `Announcement`. */
  datatype Announcement = Announcement(
    id: string,
    title: string,
    date: string,
    content: string,
    kind: AnnouncementKind)

  /** `StudentProfile`; its `role` is always 'student'. */
  datatype StudentProfile = StudentProfile(
    firstName: string,
    lastName: string,
    matricNumber: string,
    department: string,
    level: string,
    avatar: string,
    email: string,
    phone: string,
    streak: int,
    timetable: string,
    notifications: int,
    results: Option<string>,
    dateOfBirth: Option<string>,
    username: Option<string>)

  /** `AdminProfile`; its `role` is always 'admin'. */
  datatype AdminProfile = AdminProfile(
    firstName: string,
    lastName: string,
    email: string,
    department: string,
    avatar: string,
    staffId: string,
    isHOD: Option<bool>)
  {
    /** The truthiness of `isHOD`. */
    predicate IsHod() {
      isHOD == Some(true)
    }
  }

  /** `StudentProfile | AdminProfile`, told apart by the `role` field. */
  datatype Profile = StudentAccount(student: StudentProfile) | AdminAccount(admin: AdminProfile)
  {
    function Role(): UserRole {
      if StudentAccount? then Student else Admin
    }
  }
}

/** The constants of constants.ts the modelled logic reads. */
module Constants {
  import opened Types

  /** The staff access code that unlocks the admin portal. */
  const ADMIN_VERIFICATION_CODE: string := "STF-KSITM-2025"

  /** The defaults an admin registration falls back to. */
  const MOCK_ADMIN_PROFILE: AdminProfile := AdminProfile(
    firstName := "Aminu",
    lastName := "Kano",
    email := "a.kano@ksitm.edu.ng",
    department := "Computer Science",
    avatar := "https://api.dicebear.com/7.x/avataaars/svg?seed=Aminu&clothing=blazerAndShirt",
    staffId := "KSITM/STAFF/001",
    isHOD := Some(false))
}
